=== FILE: README.md ===
# Token wizard: investment attempt and crowdsale setup, modelled in Dafny

This project models the decision logic of two pages of a multi-tier token-sale
("crowdsale") wizard. The logic is taken out of its React components and written
as pure functions over explicit state.

* **Investing** (`src/components/invest/index.js`, module `Invest`).
  - The token-amount validator.
  - The ordered guard chain an investment attempt passes: invalid amount,
    missing start date, no wallet account, sale not started, no active tier.
  - The buy: the addresses of the tiers after the active one, the wei amount
    (the exact price truncated toward zero, which is what the code computes
    while the price is in plain notation; see "Findings"), and the gas limit
    (hard cap 4016260, margin 100000).
  - The one-step receipt-polling reaction and the joined-tier list
    normalisation.
  - The choice of the last tier address for the "finalized" query.
* **Crowdsale setup** (`src/components/stepThree/index.js`, module `StepThree`).
  - A state machine over the component state (`SetupView`: per-field
    `{pristine, valid}` entries), the tier store (`TierStore`) and the global
    gas price.
  - Its handlers: initial state, add tier, mount, gas-price choice, the
    minimum-cap / wallet / whitelist updates, and the deployment gate with its
    minimum-cap invalidation and whitelist count.

Supporting modules:
* `Options`: an optional value for JavaScript's `undefined`/`null`.
* `Decimals`: exact decimals `digits / 10^scale` with their real `Value`.
  These stand in for the page's JavaScript numbers.
* `Labels`: the `Tier n` labels and their decimal rendering.

Chain I/O is not called. Every answer the pages get from the chain or from
helpers outside these two files is an input:
* accounts, active-tier discovery, rate, gas estimate, send result and receipts;
* the decimal-place counter's result;
* the tier store's `areTiersValid`.

Calls into tier-store methods whose bodies are outside these files come back as
`StoreCall` values. They are `validateTiers`, the store's `updateWalletAddress`
and `invalidateToken`; their effect is not applied.

JavaScript details made explicit:
* Truthiness. A start date of 0 counts as missing. A receipt block number of 0
  counts as "no block number". A stored minimum cap of 0 becomes `''`.
* `''` compares as 0 in `globalMinCap <= maxSupply`.
* `parseInt` of a number reads the number's string form. For 0 or a
  magnitude in `[10^-6, 10^21)` that is the value truncated toward zero; for
  any other number JavaScript writes it in exponent notation and `parseInt` reads only
  its first significant digit (see "Findings").
* The amount box is read twice: unary `+` for the validator and `parseFloat`
  for the price. The two agree on decimal notation and differ on hexadecimal,
  octal and binary literals, which `parseFloat` reads as 0.

## Model

| member | source | states |
|---|---|---|
| Invest.IsValidToken | src/components/invest/index.js:304-306 | an amount is valid iff it is a number whose value is strictly positive, the token's decimals are set, and the reported decimal-place count is at most those decimals; while the decimals are `undefined` or NaN no amount is valid |
| Invest.ValidTokenMeaning | src/components/invest/index.js:304-306 | with the token's decimals set and an accurate place counter, valid means positive and a whole number of the token's smallest units (amount × 10^decimals is an integer) |
| Invest.RejectedSubmitShowsMessage | src/components/invest/index.js:343-350 | after a submission with an invalid amount, the error line is shown (the box is no longer pristine and the amount is invalid) |
| Invest.InvestToTokens | src/components/invest/index.js:194-234 | the attempt stops at the first firing guard in the fixed order; an invalid amount only clears pristine (no spinner change, no alert, no tier used); later guards clear the spinner; only "no account" and "sale not started" raise alerts; buying happens only with the discovered tier |
| Invest.GuardChainOrder | src/components/invest/index.js:201-234 | the first firing guard of the ordered chain is invalid amount, then missing start date, then no accounts, then start in the future, then no active tier |
| Invest.BuyOnlyWhenAllGuardsPass | src/components/invest/index.js:201-234 | the buy is reached iff the amount is valid, the start date is set, an account exists, the start date is not in the future and a tier is active |
| Invest.NextTiers | src/components/invest/index.js:246-249 | the result holds exactly the addresses at indices tierNum+1 … len−1, in order, with length len − tierNum − 1 (0 if tierNum ≥ len); prefix plus result rebuilds the list |
| Invest.WeiToSend | src/components/invest/index.js:256-262 | for a non-negative exact price p = tokens × rate, wei ≤ p < wei + 1 (truncation, never rounding up); for a negative price, wei − 1 < p ≤ wei; this is the evidently intended wei amount (see "Findings") |
| Invest.WeiToSendAsWritten | src/components/invest/index.js:262 | the wei as the code computes it: equal to the truncated price while the price is in plain notation, and a single signed digit (between −9 and 9) once it is not |
| Invest.LargePriceUndercharged | src/components/invest/index.js:262 | for every price of at least 10^21 wei (tokens' digits × rate ≥ 10^21 × 10^scale, which the lemma shows is the exact price being ≥ 10^21), the code sends at most 9 wei while the truncated price is at least 10^21 |
| Invest.WeiToSendAsWrittenExamples | src/components/invest/index.js:262 | 2000 tokens at 10^18 wei each are sent as 2 wei (price 2 × 10^21); 10^-18 tokens at 1000 wei are sent as 1 wei (price 10^-15, truncated 0) |
| Invest.WeiToSendExamples | src/components/invest/index.js:256-262 | 3.5 tokens at 1000 wei per token cost 3500 wei; 3.333333334 tokens at 3 wei cost 10 wei (truncated, not rounded) |
| Invest.GasLimit | src/components/invest/index.js:274-275 | a missing, zero or over-cap estimate gives 4016260; any other estimate gives estimate + 100000 |
| Invest.GasLimitBounds | src/components/invest/index.js:274-275 | the limit never exceeds cap + margin; it exceeds the cap exactly for estimates within one margin below the cap (no clamp after the margin); an over-cap estimate gets less gas than estimated |
| Invest.GasLimitExamples | src/components/invest/index.js:274-275 | no estimate gives 4016260; an estimate of 3900000 gives 4000000; an estimate of 5000000 gives 4016260 |
| Invest.RunInvestment | src/components/invest/index.js:236-282 | there is an outcome iff every guard passes and both the rate and the accounts query answer; without one, nothing is sent, nothing is reported and the view is as the guards left it (a failed query leaves the spinner on); a transaction is sent iff in addition the estimate resolves, from the first account (none if there is no account), with the truncated wei of the `parseFloat` reading, the bounded gas limit and the current gas price; a rejected estimate is reported as a failed transaction; success is reported iff it was sent and confirmed; with an outcome the spinner is off and the remaining tiers are exactly the addresses after the active tier |
| Invest.TxMinedStep | src/components/invest/index.js:284-297 | a mined receipt clears the spinner and reports success; no receipt re-polls the same hash after 500 ms; a receipt without a block number does nothing |
| Invest.PollRepliesOutcome | src/components/invest/index.js:284-297 | over successive replies, polling stops at the first receipt (after k+1 queries) and that receipt alone decides success or silence |
| Invest.PollRepliesWaiting | src/components/invest/index.js:292-296 | while no receipt arrives, every reply is consumed and the loop is still waiting on the same hash with the same state |
| Invest.TierAddresses | src/components/invest/index.js:102-103 | a single address becomes a one-element list; a list is kept unchanged |
| Invest.LastAddress | src/components/invest/index.js:308-310 | the result is absent iff the list is empty; otherwise it is the list's final element |
| Invest.FinalizedQueriesLastTier | src/components/invest/index.js:308-315 | the finalized flag is read from the single joined address, or from the last one in a list; no address exists only for an empty list |
| Decimals.Truncate | src/components/invest/index.js:262 | `parseInt` of a number written in plain notation (magnitude 0 or in `[10^-6, 10^21)`): the integer within one unit of the value, on the side toward zero |
| Decimals.LeadingDigit | src/components/invest/index.js:262 | the first significant digit d of n: 1 ≤ d ≤ 9 and d × 10^m ≤ n < (d + 1) × 10^m for n's magnitude m |
| Decimals.LeadingDigitShift | src/components/invest/index.js:262 | appending zeros to a number keeps its first significant digit |
| Decimals.PlainNotationMeaning | src/components/invest/index.js:262 | a number is written without an exponent iff it is 0 or its magnitude is at least 10^-6 and below 10^21 |
| Decimals.ParseIntOfNumber | src/components/invest/index.js:262 | `parseInt(x, 10)` of a number: in plain notation, the value truncated toward zero; in exponent notation, the first significant digit with the number's sign |
| Decimals.Scale | src/components/invest/index.js:262 | the product decimal's value is the exact product tokens × rate |
| Decimals.AtMost | src/components/stepThree/index.js:135 | the integer comparison of a decimal with a whole number agrees with the real comparison |
| Decimals.CanonicalFitsPlaces | src/components/invest/index.js:305 | for a decimal written without trailing zeros, fitting in k places is the same as having at most k places |
| Labels.ParseNatToString | src/components/stepThree/index.js:115 | reading back the decimal rendering of an ordinal gives the ordinal |
| Labels.TierLabelRoundTrip | src/components/stepThree/index.js:115 | the label `Tier n` parses back to n |
| Labels.TierLabelInjective | src/components/stepThree/index.js:115 | two tiers with different ordinals never share a label |
| StepThree.InitialView | src/components/stepThree/index.js:51-70 | every field starts pristine; only the minimum cap starts valid; the minimum cap is the store's value unless that is unset or zero, and it is then `''` |
| StepThree.InitialViewGate | src/components/stepThree/index.js:51-70 | before any edit, with valid tiers and a minimum cap within supply, the gate passes iff the pre-selected gas option is not the custom one |
| StepThree.SetGasPrice | src/components/stepThree/index.js:223-232 | the selected option id is always recorded; the global gas price takes the option's price only for a non-custom option; nothing else changes |
| StepThree.SetGasPriceGatesCustomOnly | src/components/stepThree/index.js:223-232 | after a preset is chosen the gas price cannot block the gate; after custom is chosen it blocks iff the custom value is invalid |
| StepThree.AddCrowdsale | src/components/stepThree/index.js:107-123 | exactly one tier is appended and the old tiers are kept; its label is exactly `Tier n+1`, which reads back as n+1; only when n = 0 does it get whitelisting "no" and the current account as wallet; the view, gas price and caps are unchanged |
| StepThree.AddTiersLabels | src/components/stepThree/index.js:107-123 | n additions from no tiers give exactly the labels `Tier 1` … `Tier n` in order, each reading back as its ordinal; only tier 0 carries the current account, and later tiers keep the default wallet |
| StepThree.UpdateWalletAddress | src/components/stepThree/index.js:189-204 | only the wallet value and its validation entry change, and the address is forwarded to the store |
| StepThree.UpdateMinCap | src/components/stepThree/index.js:206-221 | only the minimum-cap value, its validation entry and the store's global minimum cap change |
| StepThree.UpdateWhitelistEnabled | src/components/stepThree/index.js:326-329 | the minimum cap becomes `''` with `{pristine: false, VALID}`; only tier 0's whitelist switch is written and re-validated; nothing else changes |
| StepThree.Mount | src/components/stepThree/index.js:73-91 | afterwards at least one tier exists, the spinner is off, and the wallet field shows tier 0's wallet as pristine and valid; existing tiers are kept; from no tiers the single new tier's wallet is the current account |
| StepThree.RevalidationCalls | src/components/stepThree/index.js:138-141 | for each tier index in order, endTime then startTime is re-validated: 2n calls |
| StepThree.BeforeNavigate | src/components/stepThree/index.js:129-186 | proceeds iff tiers valid ∧ (custom gas not selected ∨ gas price valid) ∧ minCap valid ∧ minCap ≤ maxSupply; the deployment store gets (reserved > 0, tier 0 whitelisted, tier count); a minCap above supply only flips the minCap flag to invalid |
| StepThree.GateAcceptsMinCapAtSupply | src/components/stepThree/index.js:135-153 | a minimum cap equal to the maximum supply passes the gate |
| StepThree.WhitelistCount | src/components/stepThree/index.js:167-174 | the count is the total number of whitelist entries over all tiers when the gate-time whitelist switch of tier 0 is "yes", and 0 otherwise |
| StepThree.AfterGate | src/components/stepThree/index.js:153-183 | a failed network query shows the errors; off the main network the page moves on; the warning is shown iff the network is the main one, and it carries the tier count and reserved count read when the gate passed, and the gas price and whitelist count read from the state when the network answers |

Predicates and helper functions that model a source expression have no row of
their own; the contract of another row states them:
* `Invest.ShowsInvalidTokenMessage` (src/components/invest/index.js:344): `Invest.RejectedSubmitShowsMessage`.
* `Invest.IsMined` (src/components/invest/index.js:288): `Invest.TxMinedStep` and `Invest.PollRepliesOutcome`.
* `Invest.PollReplies` (src/components/invest/index.js:292-296): `Invest.PollRepliesOutcome` and `Invest.PollRepliesWaiting`.
* `StepThree.GasPriceIsValid` (src/components/stepThree/index.js:134): `StepThree.SetGasPriceGatesCustomOnly`, `StepThree.InitialViewGate` and `StepThree.BeforeNavigate`.
* `StepThree.DeployAllowed` (src/components/stepThree/index.js:153, with the operands of lines 134-136): `StepThree.BeforeNavigate` and `StepThree.GateAcceptsMinCapAtSupply`.
* `Labels.TierLabel` (src/components/stepThree/index.js:115): `StepThree.AddCrowdsale`, `StepThree.AddTiersLabels`, `Labels.TierLabelRoundTrip` and `Labels.TierLabelInjective`.
* `Invest.HasStartDate` (src/components/invest/index.js:208): `Invest.GuardChainOrder` and `Invest.BuyOnlyWhenAllGuardsPass`.
* `Invest.StartsLater` (src/components/invest/index.js:225): `Invest.GuardChainOrder` and `Invest.BuyOnlyWhenAllGuardsPass`.
* `Invest.GuardChain` (src/components/invest/index.js:201-233): `Invest.InvestToTokens` and `Invest.GuardChainOrder`.
* `StepThree.MinCapAmount` (src/components/stepThree/index.js:135): `StepThree.BeforeNavigate` and `StepThree.InitialView`.
* `StepThree.AllWhitelisted` (src/components/stepThree/index.js:170-173): `StepThree.WhitelistCount` and `StepThree.AfterGate`.

## Left out

- Rendering: the JSX, CSS classes, the QR payment view, the countdown timer and the loader.
- Chain calls: attaching to contracts, joined-tier and rate queries, gas estimation, sending, receipt queries, account and network queries. Their answers are inputs (`InvestEnv`, `ChainReplies`, `NetworkReply`, receipt replies).
- The rate's representation in the crowdsale-page store and `parseInt(crowdsalePageStore.rate, 10)`'s reading of it (src/components/invest/index.js:256): `ChainReplies.rate` is the integer that reading yields.
- Helpers defined in files that are not part of this model. These are `findCurrentContractRecursively`, `countDecimalPlaces`, the tier store's `validateTiers` / `areTiersValid` / `updateWalletAddress` / `invalidateToken`, `gweiToWei` / `weiToGwei`, and the numeric and address input validators. Their results are inputs, or their calls are recorded as `StoreCall`s.
- The tier store's `addTier`, `setTierProperty` and `setGlobalMinCap` are not part of this model either. They are modelled as an append, a field write and a setter.
- `defaultTier` and `defaultTierValidations` are not part of this model. The default tier is an input. The per-tier validation records are not kept, because only the tier store's validator, which is outside this model, reads them.
- Timers and countdown arithmetic (`setTimers`, `resetTimers`, intervals and durations): wall-clock UI scheduling.
- Floating-point display arithmetic for the balance and the total supply.
- JavaScript floating point in the wei computation. `tokensToInvest * rate` is computed exactly on decimals; the source multiplies doubles, whose rounding is not modelled. The exponent notation of products below 10^-6 and from 10^21 on is modelled in `Invest.WeiToSendAsWritten`.
- Invest.RunInvestment: prices the buy with `Invest.WeiToSend`, the truncated exact price, not with the code's `parseInt` of the product's string form (see "Findings"). The two agree for every price in plain notation.
- Invest.RunInvestment: an amount that `+` and `parseFloat` read as `Infinity` is not modelled, because a decimal is finite.
- Gas-price fetching, toasts and alert texts, and the main-network warning dialog itself. The model records only which alert, notice or next step is chosen.
- The constructor's reloading of pricing-strategy parameters for an existing crowdsale: chain I/O.
- `updateGasPrice` (the custom gas-price input's handler): it relies on the gwei conversion and the numeric validator, which are defined outside these two components and not modelled.
- The page's other state (balance, investment-method choice, finalized flag display).
- StepThree.UpdateWhitelistEnabled: requires at least one tier. The handler is reachable only after mount (while loading, the loader covers the page), and mount guarantees a tier. What the tier store does for an out-of-range index is not modelled.
- StepThree.BeforeNavigate: requires at least one tier, for the same reason. The source reads tier 0 without a check when the gate passes.
- StepThree.InitialView: treats a stored minimum cap of numeric 0 as unset. If the store held the string "0", JavaScript would keep it.
- StepThree.BeforeNavigate: treats an unset minimum cap as `''`, which compares as 0. An `undefined` in the store would make the comparison false; the store's initial value is not part of this model.

## Behaviour worth noting

- A rejected gas estimate aborts the buy: the `catch` shows the "transaction failed" toast and nothing is sent. Only an estimate that resolves to 0 or `undefined` falls back to the 4016260 cap (`Invest.RunInvestment`, `Invest.GasLimit`).
- A receipt without a block number ends polling with no action, and the spinner stays on (`Invest.TxMinedStep`).
- If the rate or the accounts query fails before the buy, the error is only logged, and the spinner stays on (`Invest.RunInvestment`).
- While the token's decimals are `undefined` or NaN (for example after loading the crowdsale data failed), `countDecimalPlaces(token) <= decimals` is false, so every amount is rejected and, once the box is touched, the error line shows (`Invest.IsValidToken`).
- The main-network warning mixes two moments: the tier count and tier 0's whitelist switch are read when the gate passes, the gas price and the whitelists only when the network query answers. The page stays editable in between, so a tier added or a gas price chosen meanwhile shows up only in the later figures (`StepThree.AfterGate`).
- The gas limit is not clamped after the margin is added. Estimates between 3916261 and 4016260 give limits above 4016260 (`Invest.GasLimitBounds`).

## Findings

| source | as written | input that shows it | evidently intended | confidence | as-written member | corrected member |
|---|---|---|---|---|---|---|
| src/components/invest/index.js:262 | `parseInt(tokensToInvest * rate, 10)` turns the product into a string first; from 10^21 on (and below 10^-6) that string is in exponent notation, and `parseInt` keeps only the first digit | 2000 tokens at a rate of 10^18 wei (1 ether) per token: the price is 2 × 10^21 wei and the transaction carries 2 wei | the price in whole wei, truncated toward zero (`Math.floor` or big-number arithmetic) | medium, not executed | Invest.WeiToSendAsWritten (shown by Invest.WeiToSendAsWrittenExamples and Invest.LargePriceUndercharged) | Invest.WeiToSend |

=== FILE: decimals.dfy ===
/** Exact decimal numbers, standing in for the JavaScript numbers the
    investment page parses out of user input. A `Decimal(digits, scale)`
    denotes `digits / 10^scale`; its meaning as a real number is `Value`. */
module Decimals {

  datatype Decimal = Decimal(digits: int, scale: nat)

  function Pow10(n: nat): (p: nat)
    ensures p >= 1
  {
    if n == 0 then 1 else 10 * Pow10(n - 1)
  }

  /** The number a decimal denotes. */
  function Value(d: Decimal): real {
    d.digits as real / Pow10(d.scale) as real
  }

  lemma {:induction false} Pow10Add(a: nat, b: nat)
    ensures Pow10(a + b) == Pow10(a) * Pow10(b)
  {
    if a > 0 {
      Pow10Add(a - 1, b);
      assert Pow10(a + b) == 10 * Pow10(a - 1 + b);
    }
  }

  /** Integer floor division brackets the exact real quotient. */
  lemma FloorBrackets(p: int, q: int)
    requires q > 0
    ensures (p / q) as real <= p as real / q as real < (p / q + 1) as real
  {
    var k := p / q;
    var x := p as real / q as real;
    assert k * q <= p < (k + 1) * q;
    assert x * q as real == p as real;
    assert (k * q) as real == k as real * q as real;
    assert ((k + 1) * q) as real == (k + 1) as real * q as real;
    assert k as real * q as real <= x * q as real;
    assert x * q as real < (k + 1) as real * q as real;
  }

  /** `Value` of a sign-flipped decimal. */
  lemma ValueNeg(d: Decimal)
    ensures Value(Decimal(-d.digits, d.scale)) == -Value(d)
  {
  }

  /** The sign of a decimal is the sign of its digits. */
  lemma ValueSign(d: Decimal)
    ensures Value(d) > 0.0 <==> d.digits > 0
    ensures Value(d) >= 0.0 <==> d.digits >= 0
  {
    DivSign(d.digits as real, Pow10(d.scale) as real);
  }

  lemma MulPosReal(a: real, b: real)
    requires a > 0.0 && b > 0.0
    ensures a * b > 0.0
  {
  }

  /** Dividing by a positive number keeps the sign. */
  lemma DivSign(x: real, q: real)
    requires q > 0.0
    ensures x / q > 0.0 <==> x > 0.0
    ensures x / q >= 0.0 <==> x >= 0.0
  {
    var t := x / q;
    assert t * q == x;
    if t > 0.0 { MulPosReal(t, q); }
    if t < 0.0 { MulPosReal(-t, q); }
  }

  /** The exact value truncated toward zero: what `parseInt` yields for a
      number in plain notation (see `ParseIntOfNumber`). */
  function Truncate(d: Decimal): (w: int)
    ensures d.digits >= 0 ==> w as real <= Value(d) < (w + 1) as real
    ensures d.digits < 0 ==> (w - 1) as real < Value(d) <= w as real
  {
    var D := Pow10(d.scale);
    if d.digits >= 0 then
      FloorBrackets(d.digits, D);
      d.digits / D
    else
      FloorBrackets(-d.digits, D);
      ValueNeg(d);
      -((-d.digits) / D)
  }

  lemma MulTen(n: nat, p: nat)
    ensures n * (10 * p) == (n * p) * 10
  {
  }

  /** The number of digits of a positive whole number, less one. */
  function Magnitude(n: nat): nat
    requires n > 0
  {
    if n < 10 then 0 else 1 + Magnitude(n / 10)
  }

  /** The first significant digit of a positive whole number: the `d` with
      `d * 10^m <= n < (d + 1) * 10^m` for the number's magnitude `m`. */
  function LeadingDigit(n: nat): (d: nat)
    requires n > 0
    ensures 1 <= d <= 9
    ensures d * Pow10(Magnitude(n)) <= n < (d + 1) * Pow10(Magnitude(n))
  {
    if n < 10 then n
    else
      var d := LeadingDigit(n / 10);
      var m := Pow10(Magnitude(n / 10));
      assert Pow10(Magnitude(n)) == 10 * m;
      BracketTimesTen(d, m, n);
      d
  }

  /** A bracket on `n / 10` gives a bracket ten times wider on `n`. */
  lemma BracketTimesTen(d: nat, m: nat, n: nat)
    requires d * m <= n / 10 < (d + 1) * m
    ensures d * (10 * m) <= n < (d + 1) * (10 * m)
  {
    var q := n / 10;
    assert n == 10 * q + n % 10;
    MulTen(d, m);
    MulTen(d + 1, m);
    assert q + 1 <= (d + 1) * m;
  }

  /** Trailing zeros do not change the first significant digit. */
  lemma LeadingDigitTimesTen(m: nat)
    requires m > 0
    ensures m * 10 > 0 && LeadingDigit(m * 10) == LeadingDigit(m)
  {
    assert (m * 10) / 10 == m;
  }

  lemma {:induction false} LeadingDigitShift(n: nat, k: nat)
    requires n > 0
    ensures n * Pow10(k) > 0 && LeadingDigit(n * Pow10(k)) == LeadingDigit(n)
    decreases k
  {
    if k == 0 {
      assert Pow10(k) == 1;
    } else {
      var p := Pow10(k - 1);
      LeadingDigitShift(n, k - 1);
      MulTen(n, p);
      LeadingDigitTimesTen(n * p);
    }
  }

  /** 10^6: magnitudes below its reciprocal are written with an exponent. */
  const PlainInverseFloor: nat := 1000000
  /** 10^21: magnitudes from here on are written with an exponent. */
  const PlainCeiling: nat := 1000000000000000000000

  /** JavaScript writes a number without an exponent exactly when it is 0 or
      its magnitude lies in `[10^-6, 10^21)`. */
  predicate PlainNotation(d: Decimal) {
    var a := if d.digits < 0 then -d.digits else d.digits;
    a == 0 || (a * PlainInverseFloor >= Pow10(d.scale) && a < PlainCeiling * Pow10(d.scale))
  }

  /** The magnitude of a decimal, as a real. */
  function Abs(d: Decimal): real {
    if Value(d) < 0.0 then -Value(d) else Value(d)
  }

  /** Multiplying both sides by a positive number keeps an ordering. */
  lemma MulOrder(x: real, y: real, q: real)
    requires q > 0.0
    ensures x <= y <==> x * q <= y * q
    ensures x < y <==> x * q < y * q
  {
    assert y * q - x * q == (y - x) * q;
    if y - x > 0.0 { MulPosReal(y - x, q); }
    if x - y > 0.0 { MulPosReal(x - y, q); }
  }

  /** `a / D` is at least `1 / L` iff `a * L >= D`. */
  lemma QuotientLowerBound(a: nat, D: nat, L: nat)
    requires D > 0 && L > 0
    ensures a * L >= D <==> 1.0 <= (a as real / D as real) * L as real
  {
    var x := a as real / D as real;
    var y := x * L as real;
    assert x * D as real == a as real;
    assert y * D as real == a as real * L as real;
    assert (a * L) as real == a as real * L as real;
    MulOrder(1.0, y, D as real);
  }

  /** `a / D` is below `U` iff `a < U * D`. */
  lemma QuotientUpperBound(a: nat, D: nat, U: nat)
    requires D > 0
    ensures a < U * D <==> a as real / D as real < U as real
  {
    var x := a as real / D as real;
    assert x * D as real == a as real;
    assert (U * D) as real == U as real * D as real;
    MulOrder(x, U as real, D as real);
  }

  /** Plain notation in terms of the number's magnitude: 0, or at least
      `10^-6` and below `10^21`. */
  lemma PlainNotationMeaning(d: Decimal)
    ensures PlainNotation(d) <==>
      Value(d) == 0.0 || (1.0 <= Abs(d) * PlainInverseFloor as real && Abs(d) < PlainCeiling as real)
  {
    var a := if d.digits < 0 then -d.digits else d.digits;
    var D, L, U := Pow10(d.scale), PlainInverseFloor, PlainCeiling;
    assert Abs(d) == a as real / D as real by {
      ValueSign(d);
      ValueNeg(d);
    }
    assert Value(d) == 0.0 <==> a == 0 by {
      ValueSign(d);
    }
    QuotientLowerBound(a, D, L);
    QuotientUpperBound(a, D, U);
  }

  /** `parseInt(x, 10)` of a JavaScript number `x`: the number is first turned
      into its string form, and only the digits before the point or the
      exponent are read. In plain notation that is the value truncated
      toward zero; in exponent notation it is the signed first significant
      digit. */
  function ParseIntOfNumber(d: Decimal): (w: int)
    ensures PlainNotation(d) && d.digits >= 0 ==> w as real <= Value(d) < (w + 1) as real
    ensures PlainNotation(d) && d.digits < 0 ==> (w - 1) as real < Value(d) <= w as real
    ensures !PlainNotation(d) ==> 1 <= (if w < 0 then -w else w) <= 9 && (w > 0 <==> d.digits > 0)
    ensures !PlainNotation(d) && d.digits > 0 ==> w == LeadingDigit(d.digits)
    ensures !PlainNotation(d) && d.digits < 0 ==> w == -(LeadingDigit(-d.digits) as int)
  {
    if PlainNotation(d) then Truncate(d)
    else if d.digits > 0 then LeadingDigit(d.digits)
    else -(LeadingDigit(-d.digits) as int)
  }

  /** The exact product of a decimal and a whole number. */
  function Scale(d: Decimal, n: int): (p: Decimal)
    ensures Value(p) == Value(d) * n as real
  {
    var D := Pow10(d.scale) as real;
    assert Value(d) * D == d.digits as real;
    assert (d.digits * n) as real == d.digits as real * n as real;
    assert Value(Decimal(d.digits * n, d.scale)) * D == (d.digits * n) as real;
    Decimal(d.digits * n, d.scale)
  }

  /** `d <= n`, decided on integers. */
  function AtMost(d: Decimal, n: int): (b: bool)
    ensures b <==> Value(d) <= n as real
  {
    var D := Pow10(d.scale);
    assert Value(d) * D as real == d.digits as real;
    assert (n * D) as real == n as real * D as real;
    d.digits <= n * D
  }

  /** Written without trailing zeros after the point (what a decimal-place
      counter sees). */
  predicate Canonical(d: Decimal) {
    d.scale == 0 || d.digits % 10 != 0
  }

  /** `d` is a whole multiple of `10^-k`: it needs at most `k` decimal places. */
  predicate FitsPlaces(d: Decimal, k: nat) {
    (d.digits * Pow10(k)) % Pow10(d.scale) == 0
  }

  lemma MulNonneg(a: int, b: int)
    requires a >= 0 && b >= 0
    ensures a * b >= 0
  {
  }

  lemma MultipleMod(m: int, q: int)
    requires q > 0
    ensures (m * q) % q == 0
  {
    var x := m * q;
    var r := x % q;
    var t := x / q;
    assert x == q * t + r;
    var u := m - t;
    assert q * u == r by { assert q * u == q * m - q * t; }
    if u >= 1 {
      MulNonneg(q, u - 1);
      assert false;
    } else if u <= -1 {
      MulNonneg(q, -u - 1);
      assert false;
    }
  }

  lemma CancelFactor(a: int, b: int, c: int)
    requires c > 0 && a * c == b * c
    ensures a == b
  {
    assert (a - b) * c == 0;
  }

  /** Scales at most `k` always fit in `k` places. */
  lemma SmallScaleFits(d: Decimal, k: nat)
    requires d.scale <= k
    ensures FitsPlaces(d, k)
  {
    var s := d.scale;
    var m := d.digits * Pow10(k - s);
    Pow10Add(s, k - s);
    assert d.digits * Pow10(k) == m * Pow10(s) by {
      assert d.digits * (Pow10(s) * Pow10(k - s)) == (d.digits * Pow10(k - s)) * Pow10(s);
    }
    MultipleMod(m, Pow10(s));
  }

  /** A decimal that fits in fewer places than its scale ends in a zero digit. */
  lemma LargeScaleFitsEndsInZero(d: Decimal, k: nat)
    requires k < d.scale && FitsPlaces(d, k)
    ensures d.digits % 10 == 0
  {
    var s := d.scale;
    var x := d.digits * Pow10(k);
    var q := x / Pow10(s);
    assert x == Pow10(s) * q + x % Pow10(s);
    var c := Pow10(s - k - 1);
    assert Pow10(s - k) == 10 * c;
    Pow10Add(k, s - k);
    var m := c * q;
    assert x == (10 * m) * Pow10(k) by {
      assert Pow10(s) * q == (Pow10(k) * (10 * c)) * q;
    }
    CancelFactor(d.digits, 10 * m, Pow10(k));
    MultipleMod(m, 10);
  }

  /** For a canonical decimal, fitting in `k` places is exactly having a
      scale of at most `k`. */
  lemma {:induction false} CanonicalFitsPlaces(d: Decimal, k: nat)
    requires Canonical(d)
    ensures FitsPlaces(d, k) <==> d.scale <= k
  {
    if d.scale <= k {
      SmallScaleFits(d, k);
    } else if FitsPlaces(d, k) {
      LargeScaleFitsEndsInZero(d, k);
    }
  }
}

=== FILE: invest.dfy ===
/** The decision logic of the investment page (src/components/invest/index.js),
    lifted out of the React component: validating the requested token amount,
    the ordered guards an investment attempt passes, the wei and gas-limit
    computations, the "remaining tiers" slice, the receipt-polling step and
    the normalisation of the joined-tier address list.

    Every chain query the page makes (accounts, active-tier discovery, rate,
    gas estimate, sending, receipts) is an input here. */
module Invest {

  import opened Options
  import opened Decimals

  type Address = string
  type TxHash = string

  /** The gas limit the page never asks for more than, unless margin pushes it over. */
  const GasLimitCap: nat := 4016260
  /** The safety margin added to a usable estimate. */
  const GasLimitMargin: nat := 100000
  /** Delay before re-polling a transaction that has no receipt yet. */
  const ReceiptPollDelayMs: nat := 500

  // ---------------------------------------------------------------------------
  // The token amount

  /** What the page knows about the text in the amount box. The text is read
      twice: `amount` is the number unary `+` reads (`None` when that is NaN),
      which the validator checks, and `floatAmount` the number `parseFloat`
      reads, which prices the buy. The two agree on decimal notation; on a
      hexadecimal, octal or binary literal such as `0x10`, `+` reads its value
      and `parseFloat` reads 0. `decimalPlaces` is the count the decimal-place
      counter returns for the text. */
  datatype TokenInput = TokenInput(amount: Option<Decimal>, floatAmount: Decimal, decimalPlaces: nat)

  /** `isValidToken`: a strictly positive amount with no more decimal places
      than the token has decimals. `tokenDecimals` is `None` while the
      token's decimals are `undefined` or NaN; a comparison with them is
      false, so then no amount is valid. */
  function IsValidToken(token: TokenInput, tokenDecimals: Option<nat>): (valid: bool)
    ensures valid <==>
      && token.amount.Some?
      && Value(token.amount.value) > 0.0
      && tokenDecimals.Some?
      && token.decimalPlaces <= tokenDecimals.value
    ensures tokenDecimals.None? ==> !valid
  {
    && (match token.amount
        case None => false
        case Some(d) => ValueSign(d); d.digits > 0)
    && (match tokenDecimals
        case None => false
        case Some(k) => token.decimalPlaces <= k)
  }

  /** When the decimal-place counter reports the places of the amount as
      written without trailing zeros, validity means exactly: positive, and
      a whole number of the token's smallest units. */
  lemma ValidTokenMeaning(token: TokenInput, tokenDecimals: nat)
    requires token.amount.Some? && Canonical(token.amount.value)
    requires token.decimalPlaces == token.amount.value.scale
    ensures IsValidToken(token, Some(tokenDecimals)) <==>
      Value(token.amount.value) > 0.0 && FitsPlaces(token.amount.value, tokenDecimals)
  {
    CanonicalFitsPlaces(token.amount.value, tokenDecimals);
  }

  /** The error line under the amount box is rendered exactly when the box
      has been touched and its content is invalid. */
  function ShowsInvalidTokenMessage(pristineTokenInput: bool, token: TokenInput, tokenDecimals: Option<nat>): bool {
    !pristineTokenInput && !IsValidToken(token, tokenDecimals)
  }

  // ---------------------------------------------------------------------------
  // One investment attempt: the guard chain

  /** The component state the attempt touches. */
  datatype InvestView = InvestView(loading: bool, pristineTokenInput: bool)

  /** What tier discovery reports: the open tier's contract and its index. */
  datatype ActiveTier = ActiveTier(contract: Address, tierNum: nat)

  /** Everything the guard chain reads. `startDate` is the sale start in
      milliseconds (`None` when unset), `tokenDecimals` the token's decimals
      (`None` when `undefined` or NaN), `accountCount` the number of wallet
      accounts, `now` the wall clock in milliseconds and `activeTier` the
      answer tier discovery would give. */
  datatype InvestEnv = InvestEnv(
    token: TokenInput,
    tokenDecimals: Option<nat>,
    startDate: Option<int>,
    accountCount: nat,
    now: int,
    activeTier: Option<ActiveTier>)

  /** JavaScript truthiness of the start date: unset and 0 both count as missing. */
  predicate HasStartDate(startDate: Option<int>) {
    startDate.Some? && startDate.value != 0
  }

  predicate StartsLater(env: InvestEnv) {
    env.startDate.Some? && env.startDate.value > env.now
  }

  datatype Guard = InvalidAmount | NoStartDate | NoAccount | SaleNotStarted | NoActiveTier

  datatype Alert = NoWalletAlert | InvestmentDisabledAlert(startDate: int)

  /** How an attempt ends before any transaction: stopped by a guard (with
      the alert it raises, if any), or going on to buy from the given tier. */
  datatype Attempt = Stopped(guard: Guard, alert: Option<Alert>) | Buying(tier: ActiveTier)

  datatype AttemptResult = AttemptResult(view: InvestView, attempt: Attempt)

  /** The guards in the order the page evaluates them, each with whether it fires. */
  function GuardChain(env: InvestEnv): seq<(Guard, bool)> {
    [ (InvalidAmount, !IsValidToken(env.token, env.tokenDecimals)),
      (NoStartDate, !HasStartDate(env.startDate)),
      (NoAccount, env.accountCount == 0),
      (SaleNotStarted, StartsLater(env)),
      (NoActiveTier, env.activeTier.None?) ]
  }

  /** The first guard of a chain that fires. */
  function FirstFiring(chain: seq<(Guard, bool)>): (g: Option<Guard>)
    ensures g.None? <==> forall i :: 0 <= i < |chain| ==> !chain[i].1
  {
    if |chain| == 0 then None
    else if chain[0].1 then Some(chain[0].0)
    else FirstFiring(chain[1..])
  }

  /** The first firing guard, spelled out. */
  lemma GuardChainOrder(env: InvestEnv)
    ensures FirstFiring(GuardChain(env)) ==
      if !IsValidToken(env.token, env.tokenDecimals) then Some(InvalidAmount)
      else if !HasStartDate(env.startDate) then Some(NoStartDate)
      else if env.accountCount == 0 then Some(NoAccount)
      else if StartsLater(env) then Some(SaleNotStarted)
      else if env.activeTier.None? then Some(NoActiveTier)
      else None
  {
    var c := GuardChain(env);
    var c4, c3, c2, c1 := c[4..], c[3..], c[2..], c[1..];
    assert c4[1..] == [];
    assert c3[1..] == c4 && c2[1..] == c3 && c1[1..] == c2 && c[1..] == c1;
    assert FirstFiring(c4) == if env.activeTier.None? then Some(NoActiveTier) else None;
    assert FirstFiring(c3) == if StartsLater(env) then Some(SaleNotStarted) else FirstFiring(c4);
    assert FirstFiring(c2) == if env.accountCount == 0 then Some(NoAccount) else FirstFiring(c3);
    assert FirstFiring(c1) == if !HasStartDate(env.startDate) then Some(NoStartDate) else FirstFiring(c2);
  }

  /** `investToTokens` followed by `investToTokensForWhitelistedCrowdsale`,
      up to the point where the buy begins. */
  function InvestToTokens(view: InvestView, env: InvestEnv): (r: AttemptResult)
    ensures r.attempt.Stopped? <==> FirstFiring(GuardChain(env)).Some?
    ensures r.attempt.Stopped? ==> FirstFiring(GuardChain(env)) == Some(r.attempt.guard)
    ensures r.attempt.Buying? ==> env.activeTier == Some(r.attempt.tier)
    // an invalid amount only marks the box as touched
    ensures r.attempt == Stopped(InvalidAmount, None) <==> !IsValidToken(env.token, env.tokenDecimals)
    ensures !IsValidToken(env.token, env.tokenDecimals) ==> r.view == view.(pristineTokenInput := false)
    // any later outcome leaves the box alone and the spinner on only while buying
    ensures IsValidToken(env.token, env.tokenDecimals) ==>
      r.view == view.(loading := r.attempt.Buying?)
    // only two guards raise an alert
    ensures r.attempt.Stopped? && r.attempt.guard == NoAccount ==> r.attempt.alert == Some(NoWalletAlert)
    ensures r.attempt.Stopped? && r.attempt.guard == SaleNotStarted ==>
      env.startDate.Some? && r.attempt.alert == Some(InvestmentDisabledAlert(env.startDate.value))
    ensures r.attempt.Stopped? && r.attempt.guard in {InvalidAmount, NoStartDate, NoActiveTier} ==>
      r.attempt.alert == None
  {
    GuardChainOrder(env);
    if !IsValidToken(env.token, env.tokenDecimals) then
      AttemptResult(view.(pristineTokenInput := false), Stopped(InvalidAmount, None))
    else
      var stopped := view.(loading := false);
      if !HasStartDate(env.startDate) then
        AttemptResult(stopped, Stopped(NoStartDate, None))
      else if env.accountCount == 0 then
        AttemptResult(stopped, Stopped(NoAccount, Some(NoWalletAlert)))
      else if env.startDate.value > env.now then
        AttemptResult(stopped, Stopped(SaleNotStarted, Some(InvestmentDisabledAlert(env.startDate.value))))
      else if env.activeTier.None? then
        AttemptResult(stopped, Stopped(NoActiveTier, None))
      else
        AttemptResult(view.(loading := true), Buying(env.activeTier.value))
  }

  /** A rejected submission makes the error line appear. */
  lemma RejectedSubmitShowsMessage(view: InvestView, env: InvestEnv)
    requires !IsValidToken(env.token, env.tokenDecimals)
    ensures ShowsInvalidTokenMessage(InvestToTokens(view, env).view.pristineTokenInput, env.token, env.tokenDecimals)
  {
  }

  /** The attempt reaches the buy exactly when no guard fires, and then it
      buys from the tier discovery reported. */
  lemma BuyOnlyWhenAllGuardsPass(view: InvestView, env: InvestEnv)
    ensures InvestToTokens(view, env).attempt.Buying? <==>
      && IsValidToken(env.token, env.tokenDecimals)
      && HasStartDate(env.startDate)
      && env.accountCount > 0
      && env.startDate.value <= env.now
      && env.activeTier.Some?
  {
  }

  // ---------------------------------------------------------------------------
  // The buy: remaining tiers, wei, gas limit

  /** The addresses of the tiers after the active one, collected as the page's
      `for (i = tierNum + 1; i < addr.length; i++)` loop does. */
  method NextTiers(addrs: seq<Address>, tierNum: nat) returns (next: seq<Address>)
    ensures |next| == if tierNum < |addrs| then |addrs| - tierNum - 1 else 0
    ensures forall i :: 0 <= i < |next| ==> next[i] == addrs[tierNum + 1 + i]
    ensures tierNum < |addrs| ==> addrs[..tierNum + 1] + next == addrs
  {
    next := [];
    var i := tierNum + 1;
    while i < |addrs|
      invariant tierNum + 1 <= i
      invariant i <= |addrs| || i == tierNum + 1
      invariant |next| == i - tierNum - 1
      invariant forall j :: 0 <= j < |next| ==> next[j] == addrs[tierNum + 1 + j]
    {
      next := next + [addrs[i]];
      i := i + 1;
    }
    if tierNum < |addrs| {
      assert addrs[..tierNum + 1] + next == addrs;
    }
  }

  /** The wei for `tokens` at `rate` wei per token: the exact price truncated
      toward zero, so an investor is never charged more than the exact price
      and less only by a fraction of a wei. This is what
      `parseInt(tokensToInvest * rate, 10)` computes while the price is written
      in plain notation; `WeiToSendAsWritten` is the expression in full. */
  function WeiToSend(tokens: Decimal, rate: int): (wei: int)
    ensures Value(tokens) * rate as real >= 0.0 ==>
      wei as real <= Value(tokens) * rate as real < (wei + 1) as real
    ensures Value(tokens) * rate as real < 0.0 ==>
      (wei - 1) as real < Value(tokens) * rate as real <= wei as real
  {
    var p := Scale(tokens, rate);
    ValueSign(p);
    Truncate(p)
  }

  /** `parseInt(tokensToInvest * rate, 10)` as the page writes it: `parseInt`
      reads the product's string form, which is in exponent notation below
      10^-6 and from 10^21 on, and then stops at the point or the `e`. */
  function WeiToSendAsWritten(tokens: Decimal, rate: int): (wei: int)
    ensures PlainNotation(Scale(tokens, rate)) ==> wei == WeiToSend(tokens, rate)
    ensures !PlainNotation(Scale(tokens, rate)) ==> -9 <= wei <= 9
  {
    var p := Scale(tokens, rate);
    ValueSign(p);
    ParseIntOfNumber(p)
  }

  /** From a price of 10^21 wei on (`tokens.digits * rate / 10^tokens.scale`,
      compared on integers), the page sends a single-digit number of wei:
      less than the price by a factor of more than 10^20. */
  lemma LargePriceUndercharged(tokens: Decimal, rate: int)
    requires tokens.digits * rate >= PlainCeiling * Pow10(tokens.scale)
    ensures Value(tokens) * rate as real >= PlainCeiling as real
    ensures WeiToSendAsWritten(tokens, rate) <= 9
    ensures WeiToSend(tokens, rate) >= PlainCeiling
  {
    var p := Scale(tokens, rate);
    assert p.digits == tokens.digits * rate && p.scale == tokens.scale;
    assert !PlainNotation(p);
    QuotientUpperBound(p.digits, Pow10(p.scale), PlainCeiling);
  }

  /** 2000 tokens at 1 ether (10^18 wei) each are sent as 2 wei instead of
      2 * 10^21; 10^-18 tokens at 1000 wei each are sent as 1 wei although
      the price is 10^-15 wei. */
  lemma WeiToSendAsWrittenExamples()
    ensures WeiToSendAsWritten(Decimal(2000, 0), 1000000000000000000) == 2
    ensures WeiToSend(Decimal(2000, 0), 1000000000000000000) == 2000000000000000000000
    ensures WeiToSendAsWritten(Decimal(1, 18), 1000) == 1
    ensures WeiToSend(Decimal(1, 18), 1000) == 0
  {
    var ether := 1000000000000000000;
    assert Pow10(3) == 1000;
    assert Pow10(18) == ether by {
      assert Pow10(6) == 1000000;
      assert Pow10(12) == 1000000 * 1000000 by { Pow10Add(6, 6); }
      Pow10Add(12, 6);
    }
    assert Pow10(21) == 1000 * ether by { Pow10Add(3, 18); }
    var big := Scale(Decimal(2000, 0), ether);
    assert big == Decimal(2 * Pow10(21), 0);
    assert !PlainNotation(big);
    LeadingDigitShift(2, 21);
    var tiny := Scale(Decimal(1, 18), 1000);
    assert tiny == Decimal(Pow10(3), 18);
    assert !PlainNotation(tiny) by {
      assert Pow10(3) * PlainInverseFloor == Pow10(9) by { Pow10Add(3, 6); }
      assert Pow10(18) == Pow10(9) * Pow10(9) by { Pow10Add(9, 9); }
    }
    LeadingDigitShift(1, 3);
  }

  /** 3.5 tokens at 1000 wei cost 3500 wei; 3.333333334 tokens at 3 wei
      cost 10 wei, not 11. */
  lemma WeiToSendExamples()
    ensures WeiToSend(Decimal(35, 1), 1000) == 3500
    ensures WeiToSend(Decimal(3333333334, 9), 3) == 10
  {
  }

  /** The gas limit set on the buy transaction from the provider's estimate
      (`None` when the estimate came back empty). */
  function GasLimit(estimate: Option<nat>): (limit: nat)
    ensures estimate.None? || estimate.value == 0 || estimate.value > GasLimitCap ==> limit == GasLimitCap
    ensures estimate.Some? && 0 < estimate.value <= GasLimitCap ==> limit == estimate.value + GasLimitMargin
  {
    if estimate.None? || estimate.value == 0 || estimate.value > GasLimitCap then GasLimitCap
    else estimate.value + GasLimitMargin
  }

  /** The limit is never above cap plus margin; it is above the cap exactly
      for estimates within one margin below it (the sum is not clamped); a
      usable estimate always gets its full margin, and an estimate over the
      cap gets less gas than estimated. */
  lemma GasLimitBounds(estimate: Option<nat>)
    ensures GasLimit(estimate) <= GasLimitCap + GasLimitMargin
    ensures GasLimit(estimate) > GasLimitCap <==>
      estimate.Some? && GasLimitCap - GasLimitMargin < estimate.value <= GasLimitCap
    ensures estimate.Some? && estimate.value <= GasLimitCap ==> GasLimit(estimate) >= estimate.value
    ensures estimate.Some? && estimate.value > GasLimitCap ==> GasLimit(estimate) < estimate.value
  {
  }

  lemma GasLimitExamples()
    ensures GasLimit(None) == 4016260
    ensures GasLimit(Some(3900000)) == 4000000
    ensures GasLimit(Some(5000000)) == 4016260
  {
  }

  /** The transaction options of the buy. */
  datatype BuyOptions = BuyOptions(from: Option<Address>, value: int, gasPrice: int, gasLimit: nat)

  /** What the provider answers to `estimateGas`: a (possibly empty) estimate, or a rejection. */
  datatype EstimateReply = EstimateResolved(gas: Option<nat>) | EstimateRejected

  /** Whether the sent transaction went through. */
  datatype SendReply = Confirmed | SendFailed

  /** What the chain answers during the buy. `rate` is the active tier's
      rate in wei per token and `accounts` the wallet accounts, both `None`
      when the query fails. */
  datatype ChainReplies = ChainReplies(
    rate: Option<int>,
    accounts: Option<seq<Address>>,
    gasPrice: int,
    estimate: EstimateReply,
    send: SendReply)

  datatype Notice = InvestmentSucceeded(tokens: Decimal) | TransactionFailed

  /** The whole attempt: the guard chain, then the buy. `submitted` is the
      transaction sent, if any, and `notice` what the user is told at the end. */
  datatype Run = Run(
    view: InvestView,
    attempt: Attempt,
    nextTiers: seq<Address>,
    submitted: Option<BuyOptions>,
    notice: Option<Notice>)

  /** One press of "Contribute", with the tier addresses the page holds and
      the chain's answers as inputs. */
  method RunInvestment(view: InvestView, env: InvestEnv, addrs: seq<Address>, chain: ChainReplies)
    returns (run: Run)
    ensures run.attempt == InvestToTokens(view, env).attempt
    // the buy has an outcome only once both chain queries answered
    ensures run.notice.Some? <==> run.attempt.Buying? && chain.rate.Some? && chain.accounts.Some?
    // a stopped attempt, or a failed rate or accounts query, changes nothing
    // more: no transaction, no notice, and the spinner as the guards left it
    ensures run.notice.None? ==> run.submitted.None? && run.view == InvestToTokens(view, env).view
    ensures run.notice.Some? ==> run.view == InvestToTokens(view, env).view.(loading := false)
    ensures run.submitted.Some? ==> run.attempt.Buying? && chain.estimate.EstimateResolved?
    ensures run.attempt.Buying? && chain.rate.Some? && chain.accounts.Some? && chain.estimate.EstimateResolved? ==>
      && run.submitted.Some?
      && run.submitted.value.value == WeiToSend(env.token.floatAmount, chain.rate.value)
      && run.submitted.value.gasLimit == GasLimit(chain.estimate.gas)
      && run.submitted.value.gasPrice == chain.gasPrice
      && run.submitted.value.from ==
           (if |chain.accounts.value| > 0 then Some(chain.accounts.value[0]) else None)
    // a rejected estimate is reported as a failed transaction
    ensures run.notice.Some? && chain.estimate.EstimateRejected? ==> run.notice == Some(TransactionFailed)
    // success is reported exactly when a transaction was sent and confirmed
    ensures run.notice.Some? && run.notice.value.InvestmentSucceeded? <==>
      run.submitted.Some? && chain.send == Confirmed
    ensures run.notice.Some? && run.notice.value.InvestmentSucceeded? ==>
      env.token.amount == Some(run.notice.value.tokens)
    // the spinner is cleared once the attempt has an outcome
    ensures run.notice.Some? ==> !run.view.loading
    ensures run.attempt.Stopped? ==> run.submitted.None? && run.notice.None?
    // the remaining tiers are collected only on the way to the estimate
    ensures run.notice.None? ==> run.nextTiers == []
    ensures run.notice.Some? ==>
      && |run.nextTiers| == (if run.attempt.tier.tierNum < |addrs| then |addrs| - run.attempt.tier.tierNum - 1 else 0)
      && forall i :: 0 <= i < |run.nextTiers| ==> run.nextTiers[i] == addrs[run.attempt.tier.tierNum + 1 + i]
  {
    var started := InvestToTokens(view, env);
    run := Run(started.view, started.attempt, [], None, None);
    if started.attempt.Stopped? {
      return;
    }
    if chain.rate.None? || chain.accounts.None? {
      // the rejection is only logged: the spinner stays on
      return;
    }
    var tier := started.attempt.tier;
    var next := NextTiers(addrs, tier.tierNum);
    var tokens := env.token.amount.value;
    var accounts := chain.accounts.value;
    var from := if |accounts| > 0 then Some(accounts[0]) else None;
    var wei := WeiToSend(env.token.floatAmount, chain.rate.value);
    match chain.estimate
    case EstimateRejected =>
      run := Run(started.view.(loading := false), started.attempt, next, None, Some(TransactionFailed));
    case EstimateResolved(gas) =>
      var opts := BuyOptions(from, wei, chain.gasPrice, GasLimit(gas));
      var notice := if chain.send == Confirmed then InvestmentSucceeded(tokens) else TransactionFailed;
      run := Run(started.view.(loading := false), started.attempt, next, Some(opts), Some(notice));
  }

  // ---------------------------------------------------------------------------
  // Polling for the receipt

  /** A transaction receipt; `blockNumber` is `None` while it has none. */
  datatype Receipt = Receipt(blockNumber: Option<nat>)

  /** JavaScript truthiness of the block number: block 0 counts as none. */
  predicate IsMined(receipt: Receipt) {
    receipt.blockNumber.Some? && receipt.blockNumber.value != 0
  }

  datatype PollAction = ReportSuccess | PollAgain(txHash: TxHash, delayMs: nat) | NoAction

  datatype PollStep = PollStep(view: InvestView, action: PollAction)

  /** `txMinedCallback`: one reaction to the result of a receipt query. */
  function TxMinedStep(view: InvestView, txHash: TxHash, receipt: Option<Receipt>): (r: PollStep)
    ensures r.action == ReportSuccess <==> receipt.Some? && IsMined(receipt.value)
    ensures r.action.PollAgain? <==> receipt.None?
    ensures r.action.PollAgain? ==> r.action == PollAgain(txHash, ReceiptPollDelayMs)
    ensures r.view == if r.action == ReportSuccess then view.(loading := false) else view
  {
    match receipt
    case Some(rc) =>
      if IsMined(rc) then PollStep(view.(loading := false), ReportSuccess)
      else PollStep(view, NoAction)
    case None => PollStep(view, PollAgain(txHash, ReceiptPollDelayMs))
  }

  datatype PollRun = PollRun(view: InvestView, action: PollAction, queries: nat)

  /** Follows the callback through successive receipt queries whose answers
      are `replies`, stopping at the first step that does not re-poll. */
  function PollReplies(view: InvestView, txHash: TxHash, replies: seq<Option<Receipt>>): PollRun
  {
    if |replies| == 0 then PollRun(view, PollAgain(txHash, ReceiptPollDelayMs), 0)
    else
      var step := TxMinedStep(view, txHash, replies[0]);
      if step.action.PollAgain? then
        var rest := PollReplies(step.view, txHash, replies[1..]);
        rest.(queries := rest.queries + 1)
      else PollRun(step.view, step.action, 1)
  }

  /** Polling keeps the same hash and view until the first receipt arrives;
      that receipt alone decides between success and silence. Without any
      receipt the loop is still waiting after consuming every reply. */
  lemma {:induction false} PollRepliesOutcome(view: InvestView, txHash: TxHash, replies: seq<Option<Receipt>>, k: nat)
    requires k < |replies| && replies[k].Some?
    requires forall j :: 0 <= j < k ==> replies[j].None?
    ensures PollReplies(view, txHash, replies).queries == k + 1
    ensures PollReplies(view, txHash, replies).action ==
      (if IsMined(replies[k].value) then ReportSuccess else NoAction)
    ensures PollReplies(view, txHash, replies).view ==
      (if IsMined(replies[k].value) then view.(loading := false) else view)
    decreases k
  {
    if k > 0 {
      PollRepliesOutcome(view, txHash, replies[1..], k - 1);
    }
  }

  lemma {:induction false} PollRepliesWaiting(view: InvestView, txHash: TxHash, replies: seq<Option<Receipt>>)
    requires forall j :: 0 <= j < |replies| ==> replies[j].None?
    ensures PollReplies(view, txHash, replies) == PollRun(view, PollAgain(txHash, ReceiptPollDelayMs), |replies|)
    decreases |replies|
  {
    if |replies| > 0 {
      PollRepliesWaiting(view, txHash, replies[1..]);
    }
  }

  // ---------------------------------------------------------------------------
  // Joined tiers

  /** What the joined-tiers query returns: one address, or a list of them. */
  datatype JoinedTiers = SingleAddress(addr: Address) | AddressList(addrs: seq<Address>)

  /** The list the page stores as the crowdsale addresses. */
  function TierAddresses(joined: JoinedTiers): (addrs: seq<Address>)
    ensures joined.SingleAddress? ==> addrs == [joined.addr]
    ensures joined.AddressList? ==> addrs == joined.addrs
  {
    match joined
    case SingleAddress(a) => [a]
    case AddressList(s) => s
  }

  /** `addr.slice(-1)[0]`: the last address, `undefined` for an empty list. */
  function LastAddress(addrs: seq<Address>): (last: Option<Address>)
    ensures last.None? <==> |addrs| == 0
    ensures last.Some? ==> last.value in addrs && addrs == addrs[..|addrs| - 1] + [last.value]
  {
    if |addrs| == 0 then None else Some(addrs[|addrs| - 1])
  }

  /** The address whose `finalized()` flag the page reads: the last joined tier. */
  lemma FinalizedQueriesLastTier(joined: JoinedTiers)
    ensures joined.SingleAddress? ==> LastAddress(TierAddresses(joined)) == Some(joined.addr)
    ensures joined.AddressList? && |joined.addrs| > 0 ==>
      LastAddress(TierAddresses(joined)) == Some(joined.addrs[|joined.addrs| - 1])
    ensures LastAddress(TierAddresses(joined)).None? <==> joined == AddressList([])
  {
  }
}

=== FILE: labels.dfy ===
/** Tier labels. The setup page names each tier it adds with the template
    `Tier ${num + 1}`, i.e. the word "Tier", a space and the ordinal in
    plain decimal notation. */
module Labels {

  import opened Options

  predicate IsDigit(c: char) {
    '0' <= c <= '9'
  }

  predicate AllDigits(s: string) {
    forall i :: 0 <= i < |s| ==> IsDigit(s[i])
  }

  function DigitChar(d: nat): (c: char)
    requires d < 10
    ensures IsDigit(c) && c as int - '0' as int == d
  {
    ('0' as int + d) as char
  }

  /** The decimal notation JavaScript uses when a non-negative integer is
      interpolated into a template string. */
  function NatToString(n: nat): (s: string)
    ensures |s| > 0 && AllDigits(s)
    ensures s[0] == '0' ==> n == 0
    decreases n
  {
    if n < 10 then [DigitChar(n)] else NatToString(n / 10) + [DigitChar(n % 10)]
  }

  /** The number a string of decimal digits denotes. */
  function ParseDigits(s: string): nat
    requires AllDigits(s)
  {
    if |s| == 0 then 0
    else ParseDigits(s[..|s| - 1]) * 10 + (s[|s| - 1] as int - '0' as int)
  }

  /** Rendering a number and reading it back gives the number. */
  lemma {:induction false} ParseNatToString(n: nat)
    ensures ParseDigits(NatToString(n)) == n
    decreases n
  {
    var s := NatToString(n);
    if n >= 10 {
      ParseNatToString(n / 10);
      assert s[..|s| - 1] == NatToString(n / 10);
    }
  }

  const TierPrefix: string := "Tier "

  /** The label `addCrowdsale` gives to the tier with the given ordinal. */
  function TierLabel(ordinal: nat): string {
    TierPrefix + NatToString(ordinal)
  }

  /** The ordinal a tier label carries, if it has the `Tier <digits>` shape. */
  function ParseTierLabel(text: string): Option<nat> {
    var p := |TierPrefix|;
    if |text| > p && text[..p] == TierPrefix && AllDigits(text[p..]) then
      Some(ParseDigits(text[p..]))
    else
      None
  }

  /** A label always reads back as the ordinal it was built from, so two
      tiers with different ordinals never share a label. */
  lemma TierLabelRoundTrip(ordinal: nat)
    ensures ParseTierLabel(TierLabel(ordinal)) == Some(ordinal)
  {
    var t := TierLabel(ordinal);
    assert t[..|TierPrefix|] == TierPrefix;
    assert t[|TierPrefix|..] == NatToString(ordinal);
    ParseNatToString(ordinal);
  }

  lemma TierLabelInjective(a: nat, b: nat)
    requires TierLabel(a) == TierLabel(b)
    ensures a == b
  {
    TierLabelRoundTrip(a);
    TierLabelRoundTrip(b);
  }
}

=== FILE: options.dfy ===
/** The optional value used wherever the modelled code reads something that
    may be `undefined` or `null`. */
module Options {

  datatype Option<+T> = None | Some(value: T)
}

=== FILE: step_three.dfy ===
/** The crowdsale-setup step (src/components/stepThree/index.js) as a state
    machine over an explicit record: the component's own state (`SetupView`),
    the part of the tier store it reads and writes (`TierStore`) and the
    global gas price. Each event handler is a function from one record to the
    next; calls into tier-store methods whose bodies are not part of this
    model (`validateTiers`, the store's `updateWalletAddress`,
    `invalidateToken`) are returned as `StoreCall`s, and the store's
    `areTiersValid` answer is an input of the deployment gate. */
module StepThree {

  import opened Options
  import opened Decimals
  import Labels

  type Address = string
  type GasOptionId = string

  datatype Validity = VALID | INVALID

  /** A form field's validation entry. */
  datatype FieldStatus = FieldStatus(pristine: bool, valid: Validity)

  datatype Validation = Validation(gasPrice: FieldStatus, minCap: FieldStatus, walletAddress: FieldStatus)

  /** The component state. `minCap` is `None` for the empty string. */
  datatype SetupView = SetupView(
    loading: bool,
    gasPriceSelected: GasOptionId,
    minCap: Option<Decimal>,
    walletAddress: Address,
    validation: Validation)

  /** The tier fields this step reads or writes. `tier` is the label. */
  datatype Tier = Tier(tier: string, whitelistEnabled: string, walletAddress: Address, whitelist: seq<Address>)

  /** The tier store: the tiers, the sale-wide minimum cap (`None` for the
      empty string) and the maximum supply. */
  datatype TierStore = TierStore(tiers: seq<Tier>, globalMinCap: Option<Decimal>, maxSupply: int)

  /** Everything the step's handlers change; `gasPrice` is the global gas price. */
  datatype Setup = Setup(view: SetupView, store: TierStore, gasPrice: int)

  /** One of the gas-price store's options (slow, standard, fast, custom). */
  datatype GasOption = GasOption(id: GasOptionId, price: int)

  datatype TierField = StartTime | EndTime | WhitelistEnabled

  /** A call into a tier-store method whose effect is not modelled here. */
  datatype StoreCall =
    | ValidateTiers(field: TierField, index: nat)
    | UpdateStoreWalletAddress(address: Address, valid: Validity)
    | InvalidateToken

  datatype Effect = Effect(setup: Setup, calls: seq<StoreCall>)

  /** At least one tier exists: what mounting the step establishes. */
  predicate Mounted(s: Setup) {
    |s.store.tiers| > 0
  }

  // ---------------------------------------------------------------------------
  // The initial state

  /** The number the page compares with the maximum supply: the empty string reads as 0. */
  function MinCapAmount(m: Option<Decimal>): real {
    match m
    case None => 0.0
    case Some(d) => Value(d)
  }

  /** The constructor's state: only the minimum cap starts valid, every
      field starts pristine, and the minimum cap is the store's value unless
      that is unset or zero (`globalMinCap || ''`). */
  function InitialView(storeMinCap: Option<Decimal>, slow: GasOption): (v: SetupView)
    ensures v.loading && v.gasPriceSelected == slow.id && v.walletAddress == ""
    ensures v.minCap.Some? <==> storeMinCap.Some? && Value(storeMinCap.value) != 0.0
    ensures v.minCap.Some? ==> v.minCap == storeMinCap
    ensures MinCapAmount(v.minCap) == MinCapAmount(storeMinCap)
    ensures v.validation.gasPrice.pristine && v.validation.minCap.pristine && v.validation.walletAddress.pristine
    ensures v.validation.minCap.valid == VALID
    ensures v.validation.gasPrice.valid == INVALID && v.validation.walletAddress.valid == INVALID
  {
    var minCap := match storeMinCap
      case Some(d) => (ValueSign(d); if d.digits != 0 then Some(d) else None)
      case None => None;
    SetupView(
      true,
      slow.id,
      minCap,
      "",
      Validation(FieldStatus(true, INVALID), FieldStatus(true, VALID), FieldStatus(true, INVALID)))
  }

  // ---------------------------------------------------------------------------
  // Gas price

  /** `setGasPrice`: the chosen option is always recorded; the global gas
      price takes the option's price unless the option is the custom one. */
  function SetGasPrice(s: Setup, option: GasOption, customId: GasOptionId): (r: Setup)
    ensures r.view.gasPriceSelected == option.id
    ensures option.id != customId ==> r.gasPrice == option.price
    ensures option.id == customId ==> r.gasPrice == s.gasPrice
    ensures r.store == s.store
    ensures r.view.(gasPriceSelected := s.view.gasPriceSelected) == s.view
    ensures Mounted(s) ==> Mounted(r)
  {
    var v := s.view.(gasPriceSelected := option.id);
    if option.id != customId then Setup(v, s.store, option.price) else Setup(v, s.store, s.gasPrice)
  }

  /** The gas-price part of the gate. */
  predicate GasPriceIsValid(v: SetupView, customId: GasOptionId) {
    customId != v.gasPriceSelected || v.validation.gasPrice.valid == VALID
  }

  /** After choosing a preset the gas price no longer blocks the gate; after
      choosing custom it blocks exactly while the custom value is invalid. */
  lemma SetGasPriceGatesCustomOnly(s: Setup, option: GasOption, customId: GasOptionId)
    ensures option.id != customId ==> GasPriceIsValid(SetGasPrice(s, option, customId).view, customId)
    ensures option.id == customId ==>
      (GasPriceIsValid(SetGasPrice(s, option, customId).view, customId) <==> s.view.validation.gasPrice.valid == VALID)
  {
  }

  // ---------------------------------------------------------------------------
  // Adding tiers

  /** `addCrowdsale`: appends one copy of the default tier labelled with the
      next ordinal; only the first tier gets whitelisting off and the
      connected account as its wallet. */
  function AddCrowdsale(s: Setup, defaults: Tier, curAddress: Address): (r: Setup)
    ensures |r.store.tiers| == |s.store.tiers| + 1
    ensures r.store.tiers[..|s.store.tiers|] == s.store.tiers
    ensures r.store.tiers[|s.store.tiers|].tier == Labels.TierLabel(|s.store.tiers| + 1)
    ensures Labels.ParseTierLabel(r.store.tiers[|s.store.tiers|].tier) == Some(|s.store.tiers| + 1)
    ensures |s.store.tiers| == 0 ==>
      r.store.tiers[0].whitelistEnabled == "no" && r.store.tiers[0].walletAddress == curAddress
    ensures |s.store.tiers| > 0 ==>
      && r.store.tiers[|s.store.tiers|].whitelistEnabled == defaults.whitelistEnabled
      && r.store.tiers[|s.store.tiers|].walletAddress == defaults.walletAddress
    ensures r.store.tiers[|s.store.tiers|].whitelist == defaults.whitelist
    ensures r.view == s.view && r.gasPrice == s.gasPrice
    ensures r.store.globalMinCap == s.store.globalMinCap && r.store.maxSupply == s.store.maxSupply
    ensures Mounted(r)
  {
    var num := |s.store.tiers|;
    var labelled := defaults.(tier := Labels.TierLabel(num + 1));
    var newTier := if num == 0 then labelled.(whitelistEnabled := "no", walletAddress := curAddress) else labelled;
    Labels.TierLabelRoundTrip(num + 1);
    s.(store := s.store.(tiers := s.store.tiers + [newTier]))
  }

  /** Pressing "Add Tier" `n` times. */
  function AddTiers(s: Setup, defaults: Tier, curAddress: Address, n: nat): Setup
    decreases n
  {
    if n == 0 then s else AddCrowdsale(AddTiers(s, defaults, curAddress, n - 1), defaults, curAddress)
  }

  /** Starting from no tiers, `n` additions give tiers labelled `Tier 1` …
      `Tier n` in order, and only the first has whitelisting off and the
      connected account as wallet. */
  lemma {:induction false} AddTiersLabels(s: Setup, defaults: Tier, curAddress: Address, n: nat)
    requires |s.store.tiers| == 0
    ensures |AddTiers(s, defaults, curAddress, n).store.tiers| == n
    ensures forall i :: 0 <= i < n ==> AddTiers(s, defaults, curAddress, n).store.tiers[i].tier == Labels.TierLabel(i + 1)
    ensures forall i :: 0 <= i < n ==>
      Labels.ParseTierLabel(AddTiers(s, defaults, curAddress, n).store.tiers[i].tier) == Some(i + 1)
    ensures n > 0 ==> AddTiers(s, defaults, curAddress, n).store.tiers[0].walletAddress == curAddress
    ensures forall i :: 1 <= i < n ==>
      AddTiers(s, defaults, curAddress, n).store.tiers[i].walletAddress == defaults.walletAddress
    decreases n
  {
    var after := AddTiers(s, defaults, curAddress, n).store.tiers;
    if n > 0 {
      AddTiersLabels(s, defaults, curAddress, n - 1);
      var before := AddTiers(s, defaults, curAddress, n - 1).store.tiers;
      assert after[..n - 1] == before;
      forall i | 0 <= i < n - 1
        ensures after[i] == before[i]
      {
        assert after[..n - 1][i] == after[i];
      }
    }
    forall i | 0 <= i < n
      ensures Labels.ParseTierLabel(after[i].tier) == Some(i + 1)
    {
      Labels.TierLabelRoundTrip(i + 1);
    }
  }

  // ---------------------------------------------------------------------------
  // Field updates

  /** `updateWalletAddress`: writes the wallet field and its validation entry
      and forwards the address to the tier store. */
  function UpdateWalletAddress(s: Setup, address: Address, pristine: bool, valid: Validity): (r: Effect)
    ensures r.setup.view.walletAddress == address
    ensures r.setup.view.validation.walletAddress == FieldStatus(pristine, valid)
    ensures r.calls == [UpdateStoreWalletAddress(address, valid)]
    // nothing else changes
    ensures r.setup.store == s.store && r.setup.gasPrice == s.gasPrice
    ensures r.setup.view.loading == s.view.loading
    ensures r.setup.view.gasPriceSelected == s.view.gasPriceSelected
    ensures r.setup.view.minCap == s.view.minCap
    ensures r.setup.view.validation.gasPrice == s.view.validation.gasPrice
    ensures r.setup.view.validation.minCap == s.view.validation.minCap
  {
    var v := s.view.(walletAddress := address,
                     validation := s.view.validation.(walletAddress := FieldStatus(pristine, valid)));
    Effect(s.(view := v), [UpdateStoreWalletAddress(address, valid)])
  }

  /** `updateMinCap`: writes the minimum-cap field, its validation entry and
      the store's sale-wide minimum cap. */
  function UpdateMinCap(s: Setup, value: Option<Decimal>, pristine: bool, valid: Validity): (r: Setup)
    ensures r.view.minCap == value && r.store.globalMinCap == value
    ensures r.view.validation.minCap == FieldStatus(pristine, valid)
    // nothing else changes
    ensures r.store.tiers == s.store.tiers && r.store.maxSupply == s.store.maxSupply
    ensures r.gasPrice == s.gasPrice
    ensures r.view.loading == s.view.loading
    ensures r.view.gasPriceSelected == s.view.gasPriceSelected
    ensures r.view.walletAddress == s.view.walletAddress
    ensures r.view.validation.gasPrice == s.view.validation.gasPrice
    ensures r.view.validation.walletAddress == s.view.validation.walletAddress
  {
    var v := s.view.(minCap := value, validation := s.view.validation.(minCap := FieldStatus(pristine, valid)));
    Setup(v, s.store.(globalMinCap := value), s.gasPrice)
  }

  /** `updateWhitelistEnabled`: first clears the minimum cap (touched and
      valid), then writes the whitelist switch on tier 0 and re-validates
      that field. */
  function UpdateWhitelistEnabled(s: Setup, value: string): (r: Effect)
    requires Mounted(s)
    ensures r.setup.view.minCap == None && r.setup.store.globalMinCap == None
    ensures r.setup.view.validation.minCap == FieldStatus(false, VALID)
    ensures |r.setup.store.tiers| == |s.store.tiers|
    ensures r.setup.store.tiers[0] == s.store.tiers[0].(whitelistEnabled := value)
    ensures r.setup.store.tiers[1..] == s.store.tiers[1..]
    ensures r.calls == [ValidateTiers(WhitelistEnabled, 0)]
    // nothing else changes
    ensures r.setup.store.maxSupply == s.store.maxSupply && r.setup.gasPrice == s.gasPrice
    ensures r.setup.view.loading == s.view.loading
    ensures r.setup.view.gasPriceSelected == s.view.gasPriceSelected
    ensures r.setup.view.walletAddress == s.view.walletAddress
    ensures r.setup.view.validation.gasPrice == s.view.validation.gasPrice
    ensures r.setup.view.validation.walletAddress == s.view.validation.walletAddress
    ensures Mounted(r.setup)
  {
    var cleared := UpdateMinCap(s, None, false, VALID);
    var tiers := cleared.store.tiers[0 := cleared.store.tiers[0].(whitelistEnabled := value)];
    assert tiers[1..] == s.store.tiers[1..];
    Effect(cleared.(store := cleared.store.(tiers := tiers)), [ValidateTiers(WhitelistEnabled, 0)])
  }

  // ---------------------------------------------------------------------------
  // Mounting

  /** The tier-seeding part of `componentDidMount`: after the gas prices are
      fetched (`fetched` is the slow option, `None` when fetching failed),
      a first tier is added if there is none, the spinner is cleared and the
      wallet field is filled from tier 0 as pristine and valid. */
  function Mount(s: Setup, fetched: Option<GasOption>, customId: GasOptionId, defaults: Tier, curAddress: Address): (r: Effect)
    ensures Mounted(r.setup)
    ensures !r.setup.view.loading
    ensures r.setup.view.walletAddress == r.setup.store.tiers[0].walletAddress
    ensures r.setup.view.validation.walletAddress == FieldStatus(true, VALID)
    ensures r.calls == [UpdateStoreWalletAddress(r.setup.store.tiers[0].walletAddress, VALID)]
    ensures |s.store.tiers| > 0 ==> r.setup.store.tiers == s.store.tiers
    ensures |s.store.tiers| == 0 ==> |r.setup.store.tiers| == 1 && r.setup.view.walletAddress == curAddress
    ensures fetched.Some? ==> r.setup.view.gasPriceSelected == fetched.value.id
    ensures fetched.Some? && fetched.value.id != customId ==> r.setup.gasPrice == fetched.value.price
    ensures fetched.None? ==> r.setup.gasPrice == s.gasPrice && r.setup.view.gasPriceSelected == s.view.gasPriceSelected
    ensures fetched.Some? && fetched.value.id == customId ==> r.setup.gasPrice == s.gasPrice
    // nothing else changes
    ensures r.setup.view.minCap == s.view.minCap && r.setup.view.validation.minCap == s.view.validation.minCap
    ensures r.setup.view.validation.gasPrice == s.view.validation.gasPrice
    ensures r.setup.store.globalMinCap == s.store.globalMinCap && r.setup.store.maxSupply == s.store.maxSupply
  {
    var priced := if fetched.Some? then SetGasPrice(s, fetched.value, customId) else s;
    var seeded := if |priced.store.tiers| == 0 then AddCrowdsale(priced, defaults, curAddress) else priced;
    var loaded := seeded.(view := seeded.view.(loading := false));
    UpdateWalletAddress(loaded, loaded.store.tiers[0].walletAddress, true, VALID)
  }

  // ---------------------------------------------------------------------------
  // The deployment gate

  /** The calls `beforeNavigate` makes before reading the gate: `endTime` then
      `startTime` re-validated for every tier index in order. */
  function RevalidationCalls(n: nat): (calls: seq<StoreCall>)
    ensures |calls| == 2 * n
    ensures forall i :: 0 <= i < n ==>
      calls[2 * i] == ValidateTiers(EndTime, i) && calls[2 * i + 1] == ValidateTiers(StartTime, i)
  {
    if n == 0 then [] else RevalidationCalls(n - 1) + [ValidateTiers(EndTime, n - 1), ValidateTiers(StartTime, n - 1)]
  }

  /** What the deployment store is initialised with. */
  datatype DeploymentInit = DeploymentInit(hasReservedTokens: bool, hasWhitelist: bool, tiersCount: nat)

  datatype Gate = Proceed(init: DeploymentInit) | ShowErrors

  datatype Navigation = Navigation(setup: Setup, calls: seq<StoreCall>, gate: Gate)

  /** When deployment may begin, over exact numbers: the tiers are
      valid, the gas price is not a pending invalid custom value, the
      minimum-cap field is valid and the minimum cap does not exceed the
      maximum supply. */
  predicate DeployAllowed(s: Setup, customId: GasOptionId, tiersValid: bool) {
    && tiersValid
    && (s.view.gasPriceSelected != customId || s.view.validation.gasPrice.valid == VALID)
    && s.view.validation.minCap.valid == VALID
    && MinCapAmount(s.store.globalMinCap) <= s.store.maxSupply as real
  }

  /** `beforeNavigate`, up to the network check. `tiersValid` is the tier
      store's `areTiersValid` as read after the re-validation calls and
      `reservedCount` the number of reserved-token entries. */
  function BeforeNavigate(s: Setup, customId: GasOptionId, tiersValid: bool, reservedCount: nat): (r: Navigation)
    requires Mounted(s)
    ensures r.gate.Proceed? <==> DeployAllowed(s, customId, tiersValid)
    ensures r.gate.Proceed? ==>
      r.gate.init == DeploymentInit(reservedCount > 0, s.store.tiers[0].whitelistEnabled == "yes", |s.store.tiers|)
    ensures r.calls == RevalidationCalls(|s.store.tiers|) + (if r.gate.ShowErrors? then [InvalidateToken] else [])
    // a minimum cap above the supply only flips the minimum-cap flag to invalid
    ensures MinCapAmount(s.store.globalMinCap) > s.store.maxSupply as real ==>
      r.setup == s.(view := s.view.(validation := s.view.validation.(minCap := s.view.validation.minCap.(valid := INVALID))))
    ensures MinCapAmount(s.store.globalMinCap) <= s.store.maxSupply as real ==> r.setup == s
    ensures Mounted(r.setup)
  {
    var gasPriceIsValid := GasPriceIsValid(s.view, customId);
    var withinSupply := match s.store.globalMinCap
      case None => 0 <= s.store.maxSupply
      case Some(d) => AtMost(d, s.store.maxSupply);
    var minCapIsValid := s.view.validation.minCap.valid == VALID;
    var revalidate := RevalidationCalls(|s.store.tiers|);
    var after :=
      if withinSupply then s
      else s.(view := s.view.(validation := s.view.validation.(minCap := s.view.validation.minCap.(valid := INVALID))));
    if tiersValid && gasPriceIsValid && minCapIsValid && withinSupply then
      var init := DeploymentInit(reservedCount > 0, s.store.tiers[0].whitelistEnabled == "yes", |s.store.tiers|);
      Navigation(after, revalidate, Proceed(init))
    else
      Navigation(after, revalidate + [InvalidateToken], ShowErrors)
  }

  /** A minimum cap equal to the maximum supply passes the gate. */
  lemma GateAcceptsMinCapAtSupply(s: Setup, customId: GasOptionId, reservedCount: nat)
    requires Mounted(s)
    requires s.store.globalMinCap.Some? && Value(s.store.globalMinCap.value) == s.store.maxSupply as real
    requires GasPriceIsValid(s.view, customId) && s.view.validation.minCap.valid == VALID
    ensures BeforeNavigate(s, customId, true, reservedCount).gate.Proceed?
  {
  }

  /** Before any edit, with valid tiers and a minimum cap within the supply,
      the gate is decided by the gas-price option alone: it passes exactly
      when the pre-selected option is not the custom one. */
  lemma InitialViewGate(store: TierStore, slow: GasOption, customId: GasOptionId, gasPrice: int, reservedCount: nat)
    requires |store.tiers| > 0
    requires MinCapAmount(store.globalMinCap) <= store.maxSupply as real
    ensures BeforeNavigate(Setup(InitialView(store.globalMinCap, slow), store, gasPrice), customId, true, reservedCount).gate.Proceed?
      <==> slow.id != customId
  {
  }

  // ---------------------------------------------------------------------------
  // After the gate: the network check and the whitelist count

  /** Every tier's whitelist, in tier order. */
  function AllWhitelisted(tiers: seq<Tier>): seq<Address>
    decreases |tiers|
  {
    if |tiers| == 0 then [] else AllWhitelisted(tiers[..|tiers| - 1]) + tiers[|tiers| - 1].whitelist
  }

  /** The whitelist count shown in the main-network warning: the total
      number of whitelist entries over all tiers when `hasWhitelist` (tier
      0's switch, read when the gate passed) is on, 0 otherwise. */
  method WhitelistCount(hasWhitelist: bool, tiers: seq<Tier>) returns (count: nat)
    ensures hasWhitelist ==> count == |AllWhitelisted(tiers)|
    ensures !hasWhitelist ==> count == 0
  {
    count := 0;
    if hasWhitelist {
      var i := 0;
      while i < |tiers|
        invariant 0 <= i <= |tiers|
        invariant count == |AllWhitelisted(tiers[..i])|
      {
        assert tiers[..i + 1][..i] == tiers[..i];
        count := count + |tiers[i].whitelist|;
        i := i + 1;
      }
      assert tiers[..|tiers|] == tiers;
    }
  }

  /** What the network query answers. */
  datatype NetworkReply = NetworkId(isMainnet: bool) | NetworkUnavailable

  datatype NextStep =
    | WarnMainnet(tiersCount: nat, gasPrice: int, reservedCount: nat, whitelistCount: nat)
    | GoToDeployment
    | ShowErrorsAfterFailure

  /** The tail of `beforeNavigate` once the gate passed: on the main network
      the user is warned with the deployment's figures, elsewhere the page
      moves on, and a failed query shows the errors. The figures are read at
      two times: `init` (tier count, tier 0's whitelist switch) and
      `reservedCount` when the gate passed, `later` (the gas price and every
      tier's whitelist) when the network answers. The page stays editable in
      between, so tiers added or a gas price chosen meanwhile show up only in
      the later figures. */
  method AfterGate(init: DeploymentInit, reservedCount: nat, later: Setup, network: NetworkReply)
    returns (next: NextStep)
    ensures network == NetworkUnavailable <==> next == ShowErrorsAfterFailure
    ensures network == NetworkId(false) <==> next == GoToDeployment
    ensures network == NetworkId(true) <==> next.WarnMainnet?
    ensures next.WarnMainnet? ==>
      && next.tiersCount == init.tiersCount
      && next.reservedCount == reservedCount
      && next.gasPrice == later.gasPrice
      && next.whitelistCount == (if init.hasWhitelist then |AllWhitelisted(later.store.tiers)| else 0)
  {
    match network
    case NetworkUnavailable =>
      next := ShowErrorsAfterFailure;
    case NetworkId(isMainnet) =>
      if isMainnet {
        var count := WhitelistCount(init.hasWhitelist, later.store.tiers);
        next := WarnMainnet(init.tiersCount, later.gasPrice, reservedCount, count);
      } else {
        next := GoToDeployment;
      }
  }
}
